=== FILE: README.md ===
# course-rag-backend in Dafny

A model of the service core of course-rag-backend, a Spring Boot backend for
retrieval-augmented chat over course documents. The model covers these parts:

- **Chat orchestration** (`ChatService`). A cache of agents keyed by chat id
  and mode. The choice between web search and a chat-scoped vector search.
  The chat turn: make sure the session exists, save the USER message, call
  the agent, save the AI message, map the retrieved sources, and fall back to
  a fixed apology on any exception. Also the negative-answer test and the
  session CRUD operations.
- **Document registry** (`DocumentStorageService`). An in-memory map from
  document id to record, with a JSON snapshot file, add, delete, lookup and
  a chat-scoped filter.
- **Ingestion** (`IngestionService`). The per-chat quota of five documents.
  The loop that tags each chunk with `chunk_index` and `total_chunks`. The
  write to the embedding store, then registration. The wrapping of
  exceptions.
- **Web retrieval** (`WebScraperService`, `WebSearchContentRetriever`). The
  first five usable result links of a search. Page text cut to 2000
  characters. Non-empty pages kept as segments tagged with their URL.

The framework is passed in as values:

- The LLM-backed agent is a function from (agent, memory id, message) to a
  reply or an exception.
- The HTTP fetches are their outcomes: the hrefs, the page text, or an
  exception.
- The parser's output and the splitter are parameters.
- The embedding store is the list of segments written to it.
- The session repository is a map. The message repository is a list that
  a chat turn appends to and chat deletion filters.
- Random ids and the clock are parameters.

Modules: `Common` (Option, Result, exceptions, prefixes and subsequences),
`Text` (ASCII lower-casing, substring search, decimal printing and
`Integer.parseInt`), `Segments`, `WebScraper`, `WebRetrieval`,
`DocumentStorage`, `Ingestion`, `Chat`, and `Provenance`. `Provenance`
connects what ingestion and web retrieval write into segment metadata with
what the chat turn reads back.

## Model

| member | source | states |
|---|---|---|
| WebScraper.Search | src/main/java/org/mql/coursebackend/service/WebScraperService.java:21-46 | The search loop's result equals `SearchOutcome`: the first five qualifying hrefs when the fetch succeeds, `[]` after an IOException, any other exception propagated |
| WebScraper.FirstResultsShape | src/main/java/org/mql/coursebackend/service/WebScraperService.java:36-41 | At most 5 URLs, each non-empty and not containing "duckduckgo.com", forming a subsequence of the hrefs in their original order |
| WebScraper.QualifyingMembership | src/main/java/org/mql/coursebackend/service/WebScraperService.java:38 | An href is among the qualifying ones iff it occurs in the input, is non-empty and avoids the search engine's domain |
| WebScraper.FirstResultsComplete | src/main/java/org/mql/coursebackend/service/WebScraperService.java:36-41 | All qualifying hrefs are kept when there are at most five; otherwise exactly the first five |
| WebScraper.Truncate | src/main/java/org/mql/coursebackend/service/WebScraperService.java:58 | The result is a prefix of the text of length at most 2000: the whole text when it is short enough, else exactly 2000 characters |
| WebScraper.Scrape | src/main/java/org/mql/coursebackend/service/WebScraperService.java:48-63 | A fetched page gives its truncated text; an IOException gives ""; any other exception propagates; the text never exceeds 2000 characters |
| WebRetrieval.PageSegment | src/main/java/org/mql/coursebackend/rag/WebSearchContentRetriever.java:34-37 | The segment keeps the page text, and its metadata has exactly two keys: filename = URL and chunk_index = "0" |
| WebRetrieval.Retrieve | src/main/java/org/mql/coursebackend/rag/WebSearchContentRetriever.java:25-43 | The retrieval loop's result equals `RetrieveOutcome`: search, then scrape each URL in order, keeping the non-empty pages, or the first exception a scrape let through |
| WebRetrieval.PagesOrdered | src/main/java/org/mql/coursebackend/rag/WebSearchContentRetriever.java:31-40 | At most one segment per URL; the segments' URLs are a subsequence of the search URLs, in order |
| WebRetrieval.PagesTagged | src/main/java/org/mql/coursebackend/rag/WebSearchContentRetriever.java:32-37 | Every segment is the non-empty scraped text of its URL, with metadata exactly filename = URL and chunk_index = "0" |
| WebRetrieval.PagesComplete | src/main/java/org/mql/coursebackend/rag/WebSearchContentRetriever.java:32-33 | Every URL whose scraped text is non-empty has a segment, so only empty pages are dropped |
| WebRetrieval.RetrieveShape | src/main/java/org/mql/coursebackend/rag/WebSearchContentRetriever.java:27-42 | An empty search gives no segments; a retrieval gives at most 5 segments, each with 1 to 2000 characters and tagged with its URL |
| DocumentStorage.Selected | src/main/java/org/mql/coursebackend/service/DocumentStorageService.java:83-93 | An entry is listed iff its record matches: global records for a null or empty chat id, otherwise records of exactly that chat; listed records are unchanged |
| DocumentStorage.RecoverDocumentsFromChroma | src/main/java/org/mql/coursebackend/service/ChromaDocumentRecoveryService.java:11-30 | Recovery returns no records |
| DocumentStorage.DocumentStorageService.LoadDocuments | src/main/java/org/mql/coursebackend/service/DocumentStorageService.java:33-57 | A readable snapshot is merged into the map and a missing or unreadable one changes nothing; recovery is attempted iff the map is then empty, and it leaves the map as it is |
| DocumentStorage.DocumentStorageService.SaveDocuments | src/main/java/org/mql/coursebackend/service/DocumentStorageService.java:59-65 | A failure is swallowed and the map is untouched. A whole write stores a snapshot of the map. A write that fails before opening leaves the file as it was. One that fails after opening leaves an unreadable file |
| DocumentStorage.AfterWrite | src/main/java/org/mql/coursebackend/service/DocumentStorageService.java:59-65 | The file holds a snapshot afterwards iff the write completed, or it failed before opening over a file that held one. A failure after opening leaves the file unreadable |
| DocumentStorage.RestartAfterWrite | src/main/java/org/mql/coursebackend/service/DocumentStorageService.java:33-65 | Starting over the file a write left reloads the map written, or the previous snapshot after a failure before opening. After a failure once the file was truncated, the registry starts empty and recovery is attempted |
| DocumentStorage.DocumentStorageService.AddDocument | src/main/java/org/mql/coursebackend/service/DocumentStorageService.java:67-81 | One record is added under the fresh id, carrying the given fields, and the map grows by one; other entries are unchanged; a failed save does not undo the add |
| DocumentStorage.DocumentStorageService.GetAllDocuments | src/main/java/org/mql/coursebackend/service/DocumentStorageService.java:83-93 | Lists exactly the stored records the chat filter selects, with their stored values |
| DocumentStorage.DocumentStorageService.GetDocument | src/main/java/org/mql/coursebackend/service/DocumentStorageService.java:95-97 | Present iff the id is a key, and then the stored record |
| DocumentStorage.DocumentStorageService.DeleteDocument | src/main/java/org/mql/coursebackend/service/DocumentStorageService.java:99-102 | Exactly the id is removed, then the map is saved; a failed save does not undo the removal |
| DocumentStorage.SelectedDisjoint | src/main/java/org/mql/coursebackend/service/DocumentStorageService.java:84-92 | A chat's list and the global list never share an entry |
| DocumentStorage.SelectedGlobalSame | src/main/java/org/mql/coursebackend/service/DocumentStorageService.java:85-88 | A null chat id and an empty one list the same records |
| DocumentStorage.SelectedCountAfterAdd | src/main/java/org/mql/coursebackend/service/DocumentStorageService.java:78 | Adding under a fresh id adds one to the count of exactly the lists that select the new record |
| DocumentStorage.DeleteRemovesOnly | src/main/java/org/mql/coursebackend/service/DocumentStorageService.java:99-102 | Deletion keeps every other entry, does nothing when the id is absent, and doing it twice is the same as doing it once |
| Ingestion.QuotaReached | src/main/java/org/mql/coursebackend/service/IngestionService.java:32-38 | Never reached for a null or empty chat id; otherwise reached iff the chat already lists at least five documents |
| Ingestion.Classify | src/main/java/org/mql/coursebackend/service/IngestionService.java:80-86 | An IllegalStateException is rethrown unchanged; any other exception becomes IOException("Ingestion failed") |
| Ingestion.DocumentMetadata | src/main/java/org/mql/coursebackend/service/IngestionService.java:43-49 | The document gets filename and source equal to the original filename, and file_size equal to the size in decimal; chatId is added iff the chat id is non-empty |
| Ingestion.Split | src/main/java/org/mql/coursebackend/service/IngestionService.java:55 | One segment per piece of text from the splitter, each carrying the document's metadata |
| Ingestion.TagChunks | src/main/java/org/mql/coursebackend/service/IngestionService.java:56-67 | The tagging loop builds `Tagged(segments)`: the same length, order and texts, with element i tagged chunk_index = i and total_chunks = n |
| Ingestion.EmbeddingStore.AddAll | src/main/java/org/mql/coursebackend/service/IngestionService.java:68-72 | The given failure is reported. The documents are appended when the call succeeds, and also when it failed but the store applied the write anyway (for example after a client timeout). Otherwise the store is unchanged |
| Ingestion.IngestionService.Ingest | src/main/java/org/mql/coursebackend/service/IngestionService.java:31-87 | When the quota is reached, IllegalStateException with the quota message; a parse failure gives its classified exception. In both cases the store and the registry are untouched. A store failure gives its classified exception and registers nothing. The store then holds the tagged chunks iff it applied the write anyway, and such chunks are never counted toward the quota. Otherwise the tagged chunks are appended to the store, then one record with totalChunks = number of chunks is registered |
| Ingestion.TaggedIndices | src/main/java/org/mql/coursebackend/service/IngestionService.java:57-64 | Chunk i keeps its text. Its chunk_index and total_chunks parse back with `Integer.parseInt` to i and n. The indices are pairwise distinct, so they are exactly 0..n-1 |
| Ingestion.ChunksInherit | src/main/java/org/mql/coursebackend/service/IngestionService.java:43-49 | Every stored chunk carries the original filename as filename and source, the size as file_size, and the chat id when there is one |
| Ingestion.QuotaKept | src/main/java/org/mql/coursebackend/service/IngestionService.java:32-38 | A registration that passes the quota check raises the chat's count by exactly one, and never above five |
| Text.Lower | src/main/java/org/mql/coursebackend/service/ChatService.java:225 | Same length; each character is lower-cased |
| Text.LowerIdempotent | src/main/java/org/mql/coursebackend/service/ChatService.java:225 | Lower-casing twice is lower-casing once |
| Text.Decimal | src/main/java/org/mql/coursebackend/service/IngestionService.java:63-64 | `String.valueOf` of a natural number is a non-empty digit string with no leading zero |
| Text.ParseInt | src/main/java/org/mql/coursebackend/service/ChatService.java:191 | `Integer.parseInt` succeeds only on a non-empty string and only inside the 32-bit range; on a digit string it gives the value it denotes |
| Text.DecimalRoundTrip | src/main/java/org/mql/coursebackend/service/ChatService.java:190-191 | Parsing the decimal form of any n up to 2^31-1 gives n back |
| Text.DecimalInjective | src/main/java/org/mql/coursebackend/service/IngestionService.java:63 | Distinct chunk positions print differently |
| Chat.CacheKey | src/main/java/org/mql/coursebackend/service/ChatService.java:75 | The key is the chat id, then "_", then the mode, with nothing else |
| Chat.CreateRetriever | src/main/java/org/mql/coursebackend/service/ChatService.java:95-109 | Web search iff the mode equals "WEB" ignoring case; otherwise a vector search filtered on this chat id, 5 results, minimum score 0.5 |
| Chat.WebModeSpellings | src/main/java/org/mql/coursebackend/service/ChatService.java:96 | The web modes are exactly the eight letter-case spellings of "web" |
| Chat.KeyCaseSensitiveChoiceNot | src/main/java/org/mql/coursebackend/service/ChatService.java:75-96 | "web" and "WEB" get different cache keys but the same web retriever |
| Chat.CacheKeyCollision | src/main/java/org/mql/coursebackend/service/ChatService.java:75 | Chat "a" in mode "b_LOCAL" and chat "a_b" in mode "LOCAL" share a cache key, though their retrievers differ |
| Chat.CacheKeyHasChatPrefix | src/main/java/org/mql/coursebackend/service/ChatService.java:75 | Every cache key starts with its chat id |
| Chat.IsAnswerNegative | src/main/java/org/mql/coursebackend/service/ChatService.java:222-230 | A null answer is negative. Every negative answer mentions "i cannot" or "don't know" once lower-cased |
| Chat.NegativeMentionsCannot | src/main/java/org/mql/coursebackend/service/ChatService.java:226-228 | Text containing "i cannot answer", or the full sentence, contains "i cannot" |
| Chat.NegativeSentenceRedundant | src/main/java/org/mql/coursebackend/service/ChatService.java:222-230 | The full-sentence clause is implied by "i cannot answer": the test is equivalent to the other three clauses |
| Chat.NegativeIgnoresCase | src/main/java/org/mql/coursebackend/service/ChatService.java:225-229 | An answer and its lower-cased form are judged alike |
| Chat.Excerpt | src/main/java/org/mql/coursebackend/service/ChatService.java:194 | Text of at most 200 characters is kept whole; longer text gives its first 200 characters followed by "..." (203 characters) |
| Chat.ToSource | src/main/java/org/mql/coursebackend/service/ChatService.java:187-201 | Mapping fails iff chunk_index is present and does not parse. Otherwise: the filename, or "Unknown"; the excerpt; the parsed index, or 0 when absent |
| Chat.ToSources | src/main/java/org/mql/coursebackend/service/ChatService.java:186-202 | Succeeds iff every segment maps; then one source per segment, in order |
| Chat.ExtractSources | src/main/java/org/mql/coursebackend/service/ChatService.java:184-203 | No sources, or a negative answer, gives none. Mapping fails only when some source's chunk_index does not parse; otherwise there is one source per retrieved segment |
| Chat.ResponseFor | src/main/java/org/mql/coursebackend/service/ChatService.java:164-219 | An agent failure gives the fallback. Otherwise the response is the fallback or carries the agent's answer. Sources appear only for a non-negative answer with retrieved sources |
| Chat.ResponseSources | src/main/java/org/mql/coursebackend/service/ChatService.java:184-211 | No sources, or a negative answer, gives the answer with no sources. Otherwise the sources match the retrieved ones one to one, in order. If any chunk_index does not parse, the fallback |
| Chat.NegativeAnswerHasNoSources | src/main/java/org/mql/coursebackend/service/ChatService.java:185 | A negative answer is returned without sources |
| Chat.History | src/main/java/org/mql/coursebackend/service/ChatService.java:125-127 | A stored message is in the history iff it belongs to the chat |
| Chat.WithoutChat | src/main/java/org/mql/coursebackend/service/ChatService.java:130 | A stored message remains iff it belongs to another chat |
| Chat.WithoutChatHistory | src/main/java/org/mql/coursebackend/service/ChatService.java:129-131 | After deletion the chat's history is empty and every other chat's history is unchanged |
| Chat.ResolveAgent | src/main/java/org/mql/coursebackend/service/ChatService.java:74-93 | A cached key yields its agent. Otherwise a new agent is built with the chat's retriever, and its serial differs from every earlier agent's |
| Chat.DefaultTitle | src/main/java/org/mql/coursebackend/service/ChatService.java:151 | "Chat " followed by the first 8 characters of the chat id, 13 characters in all |
| Chat.EvictPrefix | src/main/java/org/mql/coursebackend/service/ChatService.java:133 | Exactly the keys starting with the chat id are removed; other entries keep their agents |
| Chat.EvictionReach | src/main/java/org/mql/coursebackend/service/ChatService.java:129-134 | Deleting a chat evicts its agent in every mode, and the agents of every chat whose id it prefixes |
| Chat.EvictionOverreach | src/main/java/org/mql/coursebackend/service/ChatService.java:133 | Deleting chat "ab" evicts chat "abc"'s agents |
| Chat.ChatService.GetOrCreateAgent | src/main/java/org/mql/coursebackend/service/ChatService.java:74-93 | Afterwards the key maps to the returned agent. A hit returns the cached agent and changes nothing. A miss builds a new agent, distinct from every cached one, with the chat's retriever |
| Chat.ChatService.CreateChat | src/main/java/org/mql/coursebackend/service/ChatService.java:112-119 | A session titled "New Chat" is stored under the fresh id |
| Chat.ChatService.GetAllChats | src/main/java/org/mql/coursebackend/service/ChatService.java:121-123 | Exactly the stored sessions |
| Chat.ChatService.GetChatHistory | src/main/java/org/mql/coursebackend/service/ChatService.java:125-127 | A stored message is returned iff it belongs to this chat |
| Chat.ChatService.DeleteChat | src/main/java/org/mql/coursebackend/service/ChatService.java:129-134 | The chat's messages and session are removed, and so is every cache key with the chat id as prefix; its history is then empty |
| Chat.ChatService.UpdateChatTitle | src/main/java/org/mql/coursebackend/service/ChatService.java:136-141 | An existing session is retitled and returned; a missing one gives RuntimeException("Chat not found") and changes nothing |
| Chat.ChatService.Chat | src/main/java/org/mql/coursebackend/service/ChatService.java:143-220 | An unknown id shorter than 8 characters gives the fallback and changes nothing. Otherwise: a missing session is created titled "Chat " + the first 8 characters; the agent is resolved through the cache; the USER message is appended; the AI message is appended whenever the agent answered, even if source mapping then fails. The response is the answer with mapped sources, or the fallback |
| Chat.TurnHistory | src/main/java/org/mql/coursebackend/service/ChatService.java:155-181 | A turn adds to the chat's history exactly the USER message and then, if the agent answered, the AI message with its content |
| Chat.AgentCacheReuse | src/main/java/org/mql/coursebackend/service/ChatService.java:74-93 | Two lookups of the same chat and mode give the same agent; the WEB agent of the chat is a different one, with the web retriever |
| Chat.EffectiveChatId | src/main/java/org/mql/coursebackend/controller/ChatController.java:32-34 | A missing or empty chat id becomes "default-user", which is long enough for the default title; otherwise the id is used as given |
| Provenance.IngestedChunkSource | src/main/java/org/mql/coursebackend/service/IngestionService.java:57-64 | An ingested chunk maps to a source naming its uploaded file, with the chunk's own position as chunk index |
| Provenance.WebPageSource | src/main/java/org/mql/coursebackend/rag/WebSearchContentRetriever.java:34-37 | A web page segment maps to a source naming its URL, with chunk index 0 |
| Provenance.WebAnswerSources | src/main/java/org/mql/coursebackend/service/ChatService.java:184-203 | A non-negative answer with retrieved web pages never falls back; each page becomes, in order, a source naming its URL with chunk index 0 |

## Left out

- Text.Lower: lower-cases ASCII letters only. Java's `toLowerCase` is locale- and Unicode-aware, and Dafny has no Unicode case tables.
- Chat.ChatService.GetAllChats: returns the set of sessions. The newest-first order by `createdAt` is a database timestamp and is not modelled.
- Chat.ChatService.Chat: failures of the session or message repository are not modelled. In the source such a failure marks the surrounding transaction rollback-only, so the caller does not reliably get the fallback. The commit can throw instead, and the saved USER message and new session are rolled back.
- Chat.ChatService.Chat: strings are sequences of Unicode code points, but Java's `length()` and `substring` count UTF-16 code units. For an id with characters outside the Basic Multilingual Plane, the model's test of fewer than 8 characters and its 8-character title prefix differ from Java's. For example, an id of four emoji has length 8 in Java, so Java creates the session where the model falls back. A Java cut can also split a surrogate pair, which the model cannot express.
- Chat.DefaultTitle: its requirement of at least 8 characters, and its 13-character result, count Unicode code points. Java's `substring(0, 8)` needs and takes 8 UTF-16 code units. An id of four emoji is too short for the model but titled "Chat " plus those four emoji by Java. A Java cut can also split a surrogate pair, which the model cannot express.
- Chat.Excerpt: counts code points where Java counts UTF-16 code units. For text outside the Basic Multilingual Plane, the 200-character cut falls elsewhere, and a Java cut can split a surrogate pair.
- WebScraper.Truncate: counts code points where Java counts UTF-16 code units. For text outside the Basic Multilingual Plane, the 2000-character cut falls elsewhere, and a Java cut can split a surrogate pair.
- Text.ParseInt: accepts only ASCII digits. Java's `Integer.parseInt` also accepts other Unicode decimal digits, such as Arabic-Indic ones, so such a chunk_index parses in Java but falls back in the model. Lengths here are counted in code points, not UTF-16 units.
- Chat.ChatService.GetChatHistory: messages are kept in insertion order, not ordered by `createdAt` timestamp.
- The agent is an opaque function: AiServices, the system prompt, chat memory, prompt building and the LLM call are not modelled. So is the retrieval the agent runs with its retriever. `Retriever` only records which retriever was chosen and its parameters.
- Vector search and its similarity scores are not modelled: they are floating-point embeddings computed by external services.
- Parsing (Apache Tika) and the recursive splitter (1000 characters, overlap 100) are library code. The parsed document and the splitter are parameters. The splitter's own metadata keys are not modelled.
- HTTP and HTML handling (jsoup) are given as fetch outcomes. Not modelled: query URL encoding, user agent, timeouts, the `.result__a` selection, and removing script, style, nav, footer and header before taking the body text.
- The JSON snapshot file is an exact copy of the map, or unreadable after a write that failed partway. The Jackson encoding itself is left out.
- Random UUIDs and the clock are parameters (`freshId`, `now`). Record timestamps are integers.
- Numeric widths: file sizes and chunk counts are unbounded integers. Only `Integer.parseInt`'s 32-bit range is modelled, because it decides whether a chunk index parses.
- Concurrency (`ConcurrentHashMap`) is not modelled: every operation runs alone. `@Transactional` rollback is not modelled either.
- Logging and console output are not modelled.
- The HTTP controllers are not part of this model, except the default chat id. The configuration beans and the evaluation script are not part of it either.

=== FILE: chat.dfy ===
/** ChatService: the per-chat, per-mode agent cache, the choice of
    retriever, the chat turn (ensure session, save the user message, ask the
    agent, save the AI message, extract sources, fall back on any
    exception) and the session CRUD operations.  The session repository is
    a map; the message repository is a list that a chat turn appends to and
    chat deletion filters; the agent is opaque: a
    function from (agent, memory id, user message) to its reply. */
module Chat {
  import opened Common
  import opened Text
  import opened Segments

  // ------------------------------------------------------------- entities

  datatype ChatSession = ChatSession(id: string, title: string)

  /** The `type` column of a message: "USER" or "AI". */
  datatype Role = User | Ai

  /** A stored message; its content is null when the model's answer was. */
  datatype ChatMessage = ChatMessage(chatId: string, role: Role, content: Option<string>)

  /** The content retriever an agent is built with: the shared web
      retriever, or a vector search over the embedding store restricted to
      one chat's segments. */
  datatype Retriever =
    | WebSearch
    | EmbeddingSearch(chatIdFilter: string, maxResults: nat, minScore: real)

  /** An agent built by AiServices.  `serial` tells apart agents built at
      different times: two builds never give the same object. */
  datatype Agent = Agent(serial: nat, retriever: Retriever)

  /** What `agent.chat(chatId, message)` does: return the answer text (which
      may be null) with the retrieved sources (which may be null), or throw. */
  datatype AgentReply =
    | Answered(content: Option<string>, sources: Option<seq<TextSegment>>)
    | AgentFailed(error: Exception)

  datatype SourceDocument = SourceDocument(filename: string, excerpt: string, chunkIndex: int)

  datatype ChatResponse = ChatResponse(answer: Option<string>, sources: seq<SourceDocument>)

  const FallbackAnswer: string :=
    "I apologize, but I encountered an error while processing your request. Please try again."

  /** The response every failed chat turn gives. */
  const Fallback: ChatResponse := ChatResponse(Some(FallbackAnswer), [])

  const MaxExcerptChars: nat := 200
  const WebMode: string := "WEB"
  const NewChatTitle: string := "New Chat"
  /** The chat id ChatController substitutes for a missing or empty one. */
  const DefaultChatId: string := "default-user"

  // ---------------------------------------------------- retriever choice

  /** The cache key of an agent. */
  function CacheKey(chatId: string, mode: string): (r: string)
    ensures |r| == |chatId| + 1 + |mode|
    ensures r[..|chatId|] == chatId && r[|chatId|] == '_' && r[|chatId| + 1..] == mode
  {
    chatId + "_" + mode
  }

  /** "WEB".equalsIgnoreCase(mode). */
  predicate IsWebMode(mode: string)
  {
    EqualsIgnoreCase(WebMode, mode)
  }

  /** `createRetriever`: web search for mode WEB in any letter case, else a
      search of the chat's own segments, at most 5 results scoring at least
      0.5. */
  function CreateRetriever(chatId: string, mode: string): (r: Retriever)
    ensures r.WebSearch? <==> IsWebMode(mode)
    ensures !IsWebMode(mode) ==> r == EmbeddingSearch(chatId, 5, 0.5)
  {
    if IsWebMode(mode) then WebSearch else EmbeddingSearch(chatId, 5, 0.5)
  }

  /** The modes that select web search are exactly the eight spellings of
      "web". */
  lemma WebModeSpellings(mode: string)
    ensures IsWebMode(mode) <==>
      |mode| == 3 && mode[0] in "wW" && mode[1] in "eE" && mode[2] in "bB"
  {
    if |mode| == 3 && mode[0] in "wW" && mode[1] in "eE" && mode[2] in "bB" {
      assert Lower(mode) == "web";
    }
    if IsWebMode(mode) {
      assert Lower(mode) == "web";
      assert LowerChar(mode[0]) == 'w' && LowerChar(mode[1]) == 'e' && LowerChar(mode[2]) == 'b';
    }
  }

  /** The cache key is case-sensitive but the choice of retriever is not:
      "web" and "WEB" get two cache entries, both for web search. */
  lemma KeyCaseSensitiveChoiceNot(chatId: string)
    ensures CacheKey(chatId, "web") != CacheKey(chatId, "WEB")
    ensures CreateRetriever(chatId, "web") == CreateRetriever(chatId, "WEB") == WebSearch
  {
    assert CacheKey(chatId, "web")[|chatId| + 1] == 'w';
    assert Lower("web") == "web";
  }

  /** The key is not injective: chat "a" in mode "b_LOCAL" and chat "a_b" in
      mode "LOCAL" share a cache entry, though their own retrievers differ
      (the first searches chat "a", the second chat "a_b").  Whichever is
      built first serves both. */
  lemma CacheKeyCollision()
    ensures CacheKey("a", "b_LOCAL") == CacheKey("a_b", "LOCAL")
    ensures CreateRetriever("a", "b_LOCAL") != CreateRetriever("a_b", "LOCAL")
  {
    assert Lower("b_LOCAL") != Lower(WebMode) by {
      assert |Lower("b_LOCAL")| == 7;
    }
    assert Lower("LOCAL") != Lower(WebMode) by {
      assert |Lower("LOCAL")| == 5;
    }
  }

  /** A cache key starts with its chat id, so eviction by prefix catches
      every mode of the chat. */
  lemma CacheKeyHasChatPrefix(chatId: string, mode: string)
    ensures StartsWith(CacheKey(chatId, mode), chatId)
  {
    assert CacheKey(chatId, mode)[..|chatId|] == chatId;
  }

  // ------------------------------------------------------ negative answers

  const CannotAnswer: string := "i cannot answer"
  const Cannot: string := "i cannot"
  const ProvidedDocuments: string := "provided documents"
  const CannotAnswerSentence: string := CannotAnswer + " this question based on the provided documents"
  const DontKnow: string := "don't know"
  const ContextWord: string := "context"

  /** `isAnswerNegative`: a null answer, or one whose lower-cased text says
      the model could not answer. */
  function IsAnswerNegative(answer: Option<string>): (r: bool)
    ensures answer.None? ==> r
    ensures answer.Some? && r ==>
      Contains(Lower(answer.value), Cannot) || Contains(Lower(answer.value), DontKnow)
  {
    if answer.None? then true
    else
      var lower := Lower(answer.value);
      NegativeMentionsCannot(lower);
      || Contains(lower, CannotAnswer)
      || (Contains(lower, Cannot) && Contains(lower, ProvidedDocuments))
      || Contains(lower, CannotAnswerSentence)
      || (Contains(lower, DontKnow) && Contains(lower, ContextWord))
  }

  /** Text containing "i cannot answer", or the full sentence, contains
      "i cannot". */
  lemma NegativeMentionsCannot(lower: string)
    ensures Contains(lower, CannotAnswer) ==> Contains(lower, Cannot)
    ensures Contains(lower, CannotAnswerSentence) ==> Contains(lower, Cannot)
  {
    assert CannotAnswer[..|Cannot|] == Cannot;
    StartsWithContains(CannotAnswer, Cannot);
    assert CannotAnswerSentence[..|CannotAnswer|] == CannotAnswer;
    StartsWithContains(CannotAnswerSentence, CannotAnswer);
    if Contains(lower, CannotAnswer) {
      ContainsTransitive(lower, CannotAnswer, Cannot);
    }
    if Contains(lower, CannotAnswerSentence) {
      ContainsTransitive(lower, CannotAnswerSentence, CannotAnswer);
      ContainsTransitive(lower, CannotAnswer, Cannot);
    }
  }

  /** The full sentence clause adds nothing: whatever contains it contains
      "i cannot answer".  So the predicate is a three-clause disjunction. */
  lemma NegativeSentenceRedundant(answer: string)
    ensures var lower := Lower(answer);
      IsAnswerNegative(Some(answer)) <==>
        || Contains(lower, CannotAnswer)
        || (Contains(lower, Cannot) && Contains(lower, ProvidedDocuments))
        || (Contains(lower, DontKnow) && Contains(lower, ContextWord))
  {
    var lower := Lower(answer);
    if Contains(lower, CannotAnswerSentence) {
      assert CannotAnswerSentence[..|CannotAnswer|] == CannotAnswer;
      StartsWithContains(CannotAnswerSentence, CannotAnswer);
      ContainsTransitive(lower, CannotAnswerSentence, CannotAnswer);
    }
  }

  /** The predicate ignores letter case. */
  lemma NegativeIgnoresCase(answer: string)
    ensures IsAnswerNegative(Some(answer)) == IsAnswerNegative(Some(Lower(answer)))
  {
    LowerIdempotent(answer);
  }

  // -------------------------------------------------------- source mapping

  /** The excerpt of a source: the text itself when it has at most 200
      characters, else its first 200 characters followed by "...". */
  function Excerpt(text: string): (r: string)
    ensures |r| <= MaxExcerptChars + 3
    ensures |text| <= MaxExcerptChars ==> r == text
    ensures |text| > MaxExcerptChars ==>
      |r| == MaxExcerptChars + 3 && r[..MaxExcerptChars] == text[..MaxExcerptChars]
      && r[MaxExcerptChars..] == "..."
  {
    if |text| > MaxExcerptChars then text[..MaxExcerptChars] + "..." else text
  }

  /** The mapping of one retrieved segment to a source: filename (default
      "Unknown"), excerpt, and chunk_index parsed with Integer.parseInt
      (default 0); an unparsable index throws NumberFormatException. */
  function ToSource(segment: TextSegment): (r: Result<SourceDocument>)
    ensures r.Ok? <==> "chunk_index" !in segment.metadata || ParseInt(segment.metadata["chunk_index"]).Some?
    ensures r.Ok? ==> r.value.excerpt == Excerpt(segment.text)
    ensures r.Ok? ==> (r.value.filename ==
      if "filename" in segment.metadata then segment.metadata["filename"] else "Unknown")
    ensures r.Ok? ==> (r.value.chunkIndex ==
      if "chunk_index" in segment.metadata then ParseInt(segment.metadata["chunk_index"]).value else 0)
  {
    var filename := if "filename" in segment.metadata then segment.metadata["filename"] else "Unknown";
    var chunkIndex := if "chunk_index" in segment.metadata then ParseInt(segment.metadata["chunk_index"]) else Some(0);
    if chunkIndex.None? then Threw(RuntimeFailure("NumberFormatException"))
    else Ok(SourceDocument(filename, Excerpt(segment.text), chunkIndex.value))
  }

  /** The stream map over the sources: every segment mapped in order, or the
      first exception. */
  function ToSources(segments: seq<TextSegment>): (r: Result<seq<SourceDocument>>)
    ensures r.Ok? <==> forall k :: 0 <= k < |segments| ==> ToSource(segments[k]).Ok?
    ensures r.Ok? ==> (|r.value| == |segments|
      && forall k :: 0 <= k < |segments| ==> r.value[k] == ToSource(segments[k]).value)
  {
    if segments == [] then Ok([])
    else
      match ToSource(segments[0])
      case Threw(e) => Threw(e)
      case Ok(first) =>
        match ToSources(segments[1..])
        case Threw(e) => Threw(e)
        case Ok(rest) => Ok([first] + rest)
  }

  /** The sources of a reply: none when the model gave no sources or a
      negative answer, else each source mapped. */
  function ExtractSources(answer: Option<string>, sources: Option<seq<TextSegment>>): (r: Result<seq<SourceDocument>>)
    ensures sources.None? || IsAnswerNegative(answer) ==> r == Ok([])
    ensures r.Threw? ==> exists k :: 0 <= k < |sources.value| && ToSource(sources.value[k]).Threw?
    ensures r.Ok? && sources.Some? && !IsAnswerNegative(answer) ==> |r.value| == |sources.value|
  {
    if sources.None? || IsAnswerNegative(answer) then Ok([]) else ToSources(sources.value)
  }

  /** The response to a turn whose user message is saved: the fallback when
      the agent or the source mapping threw, else the answer and sources. */
  function ResponseFor(reply: AgentReply): (r: ChatResponse)
    ensures reply.AgentFailed? ==> r == Fallback
    ensures r == Fallback || (reply.Answered? && r.answer == reply.content)
    ensures r.sources != [] ==> reply.Answered? && reply.sources.Some? && !IsAnswerNegative(reply.content)
  {
    match reply
    case AgentFailed(_) => Fallback
    case Answered(answer, sources) =>
      match ExtractSources(answer, sources)
      case Threw(_) => Fallback
      case Ok(mapped) => ChatResponse(answer, mapped)
  }

  /** A reply with no sources, or with a negative answer, yields the answer
      with no sources; otherwise the sources correspond one to one, in
      order, to the reply's, unless one of them has a bad chunk_index, which
      yields the fallback. */
  lemma ResponseSources(reply: AgentReply)
    requires reply.Answered?
    ensures reply.sources.None? || IsAnswerNegative(reply.content) ==>
      ResponseFor(reply) == ChatResponse(reply.content, [])
    ensures reply.sources.Some? && !IsAnswerNegative(reply.content) ==>
      var segments := reply.sources.value;
      if forall k :: 0 <= k < |segments| ==> ToSource(segments[k]).Ok? then
        && ResponseFor(reply).answer == reply.content
        && |ResponseFor(reply).sources| == |segments|
        && forall k :: 0 <= k < |segments| ==> ResponseFor(reply).sources[k] == ToSource(segments[k]).value
      else ResponseFor(reply) == Fallback
  {
  }

  /** A negative answer never carries sources, whatever was retrieved. */
  lemma NegativeAnswerHasNoSources(reply: AgentReply)
    requires reply.Answered? && IsAnswerNegative(reply.content)
    ensures ResponseFor(reply).sources == []
  {
  }

  // -------------------------------------------------------------- history

  /** The messages of one chat, in the order they were saved. */
  function History(messages: seq<ChatMessage>, chatId: string): (r: seq<ChatMessage>)
    ensures |r| <= |messages|
    ensures forall k :: 0 <= k < |r| ==> r[k].chatId == chatId && r[k] in messages
    ensures forall m :: m in r <==> m in messages && m.chatId == chatId
  {
    if messages == [] then []
    else
      var last := messages[|messages| - 1];
      History(messages[..|messages| - 1], chatId) + (if last.chatId == chatId then [last] else [])
  }

  /** The messages of every other chat (`deleteByChatId`). */
  function WithoutChat(messages: seq<ChatMessage>, chatId: string): (r: seq<ChatMessage>)
    ensures |r| <= |messages|
    ensures forall k :: 0 <= k < |r| ==> r[k].chatId != chatId && r[k] in messages
    ensures forall m :: m in r <==> m in messages && m.chatId != chatId
  {
    if messages == [] then []
    else
      var last := messages[|messages| - 1];
      WithoutChat(messages[..|messages| - 1], chatId) + (if last.chatId != chatId then [last] else [])
  }

  lemma {:induction false} HistoryAppend(messages: seq<ChatMessage>, extra: seq<ChatMessage>, chatId: string)
    ensures History(messages + extra, chatId) == History(messages, chatId) + History(extra, chatId)
    decreases |extra|
  {
    if extra == [] {
      assert messages + extra == messages;
    } else {
      var init, last := extra[..|extra| - 1], extra[|extra| - 1];
      assert (messages + extra)[..|messages + extra| - 1] == messages + init;
      HistoryAppend(messages, init, chatId);
    }
  }

  /** After deletion a chat has no history, and every other chat keeps its
      own. */
  lemma {:induction false} WithoutChatHistory(messages: seq<ChatMessage>, chatId: string, other: string)
    ensures History(WithoutChat(messages, chatId), chatId) == []
    ensures other != chatId ==> History(WithoutChat(messages, chatId), other) == History(messages, other)
  {
    if messages != [] {
      var init, last := messages[..|messages| - 1], messages[|messages| - 1];
      WithoutChatHistory(init, chatId, other);
      var kept := if last.chatId != chatId then [last] else [];
      HistoryAppend(WithoutChat(init, chatId), kept, chatId);
      HistoryAppend(WithoutChat(init, chatId), kept, other);
      assert History(kept, chatId) == [] by {
        assert kept == [] || kept[..0] == [];
      }
      if kept != [] {
        assert kept[..0] == [];
      }
    }
  }

  // ------------------------------------------------------------- eviction

  /** The cache after `removeIf(k -> k.startsWith(chatId))`. */
  function EvictPrefix(cache: map<string, Agent>, chatId: string): (r: map<string, Agent>)
    ensures forall k :: k in r <==> k in cache && !StartsWith(k, chatId)
    ensures forall k :: k in r ==> r[k] == cache[k]
  {
    map k | k in cache && !StartsWith(k, chatId) :: cache[k]
  }

  /** Deleting a chat evicts its agents in every mode, and also the agents
      of every chat whose id starts with its id. */
  lemma EvictionReach(cache: map<string, Agent>, chatId: string, otherChat: string, mode: string)
    requires StartsWith(otherChat, chatId)
    ensures CacheKey(chatId, mode) !in EvictPrefix(cache, chatId)
    ensures CacheKey(otherChat, mode) !in EvictPrefix(cache, chatId)
  {
    CacheKeyHasChatPrefix(chatId, mode);
    CacheKeyHasChatPrefix(otherChat, mode);
    assert CacheKey(otherChat, mode)[..|chatId|] == otherChat[..|chatId|];
  }

  /** Deleting chat "ab" also evicts chat "abc"'s agents. */
  lemma EvictionOverreach(cache: map<string, Agent>, mode: string)
    ensures CacheKey("abc", mode) !in EvictPrefix(cache, "ab")
  {
    assert StartsWith("abc", "ab");
    EvictionReach(cache, "ab", "abc", mode);
  }

  // ------------------------------------------------------------ the service

  /** The agent `getOrCreateAgent` returns: the cached one, or a new one
      (serial `built`) with the retriever for the chat and mode. */
  function ResolveAgent(cache: map<string, Agent>, built: nat, chatId: string, mode: string): (r: Agent)
    ensures CacheKey(chatId, mode) in cache ==> r == cache[CacheKey(chatId, mode)]
    ensures CacheKey(chatId, mode) !in cache ==>
      r.retriever == CreateRetriever(chatId, mode) && r.serial == built
      && (forall k :: k in cache && cache[k].serial < built ==> cache[k] != r)
  {
    var key := CacheKey(chatId, mode);
    if key in cache then cache[key] else Agent(built, CreateRetriever(chatId, mode))
  }

  /** The default title of a session created by its first message. */
  function DefaultTitle(chatId: string): (r: string)
    requires |chatId| >= 8
    ensures |r| == 13 && r[..5] == "Chat " && r[5..] == chatId[..8]
  {
    "Chat " + chatId[..8]
  }

  class ChatService {
    var agentCache: map<string, Agent>
    /** How many agents have been built; the next gets this serial. */
    var agentsBuilt: nat
    var sessions: map<string, ChatSession>
    var messages: seq<ChatMessage>

    /** Every cached agent was built before now. */
    ghost predicate Valid()
      reads this
    {
      forall k :: k in agentCache ==> agentCache[k].serial < agentsBuilt
    }

    constructor ()
      ensures Valid()
      ensures agentCache == map[] && agentsBuilt == 0 && sessions == map[] && messages == []
    {
      agentCache, agentsBuilt, sessions, messages := map[], 0, map[], [];
    }

    /** `getOrCreateAgent`: on a hit the cached agent and nothing changes; on
        a miss a new agent, stored under the key before it is returned. */
    method GetOrCreateAgent(chatId: string, mode: string) returns (agent: Agent)
      requires Valid()
      modifies this`agentCache, this`agentsBuilt
      ensures Valid()
      ensures agent == ResolveAgent(old(agentCache), old(agentsBuilt), chatId, mode)
      ensures agentCache == old(agentCache)[CacheKey(chatId, mode) := agent]
      ensures CacheKey(chatId, mode) in old(agentCache) ==>
        agentCache == old(agentCache) && agentsBuilt == old(agentsBuilt)
      ensures CacheKey(chatId, mode) !in old(agentCache) ==>
        agentsBuilt == old(agentsBuilt) + 1
        && forall k :: k in old(agentCache) ==> old(agentCache)[k] != agent
    {
      var cacheKey := CacheKey(chatId, mode);
      if cacheKey in agentCache {
        return agentCache[cacheKey];
      }
      var retriever := CreateRetriever(chatId, mode);
      agent := Agent(agentsBuilt, retriever);
      agentsBuilt := agentsBuilt + 1;
      agentCache := agentCache[cacheKey := agent];
    }

    /** `createChat`: a session titled "New Chat" under the random id. */
    method CreateChat(freshId: string) returns (session: ChatSession)
      modifies this`sessions
      ensures session == ChatSession(freshId, NewChatTitle)
      ensures sessions == old(sessions)[freshId := session]
    {
      session := ChatSession(freshId, NewChatTitle);
      sessions := sessions[freshId := session];
    }

    /** `getAllChats` (the newest-first order is left out). */
    function GetAllChats(): (r: set<ChatSession>)
      reads this
      ensures forall s :: s in r <==> exists id :: id in sessions && sessions[id] == s
    {
      sessions.Values
    }

    /** `getChatHistory`. */
    function GetChatHistory(chatId: string): (r: seq<ChatMessage>)
      reads this
      ensures forall k :: 0 <= k < |r| ==> r[k].chatId == chatId && r[k] in messages
      ensures forall m :: m in r <==> m in messages && m.chatId == chatId
    {
      History(messages, chatId)
    }

    /** `deleteChat`: drop the chat's messages, its session, and every cached
        agent whose key starts with its id. */
    method DeleteChat(chatId: string)
      requires Valid()
      modifies this`messages, this`sessions, this`agentCache
      ensures Valid()
      ensures messages == WithoutChat(old(messages), chatId)
      ensures sessions == old(sessions) - {chatId}
      ensures agentCache == EvictPrefix(old(agentCache), chatId)
      ensures GetChatHistory(chatId) == []
    {
      messages := WithoutChat(messages, chatId);
      sessions := sessions - {chatId};
      agentCache := EvictPrefix(agentCache, chatId);
      WithoutChatHistory(old(messages), chatId, chatId);
    }

    /** `updateChatTitle`: retitle an existing session, or throw "Chat not
        found". */
    method UpdateChatTitle(chatId: string, newTitle: string) returns (r: Result<ChatSession>)
      modifies this`sessions
      ensures chatId in old(sessions) ==>
        && r == Ok(old(sessions)[chatId].(title := newTitle))
        && sessions == old(sessions)[chatId := r.value]
      ensures chatId !in old(sessions) ==>
        r == Threw(RuntimeFailure("Chat not found")) && sessions == old(sessions)
    {
      if chatId !in sessions {
        return Threw(RuntimeFailure("Chat not found"));
      }
      var session := sessions[chatId].(title := newTitle);
      sessions := sessions[chatId := session];
      return Ok(session);
    }

    /** `chat`: one turn.  A new chat id shorter than 8 characters makes the
        default title's substring throw before anything is saved. */
    method Chat(chatId: string, message: string, mode: string,
                agentCall: (Agent, string, string) -> AgentReply)
      returns (response: ChatResponse)
      requires Valid()
      modifies this
      ensures Valid()
      ensures chatId !in old(sessions) && |chatId| < 8 ==>
        response == Fallback && unchanged(this)
      ensures chatId in old(sessions) || |chatId| >= 8 ==>
        var agent := ResolveAgent(old(agentCache), old(agentsBuilt), chatId, mode);
        var reply := agentCall(agent, chatId, message);
        && sessions == (if chatId in old(sessions) then old(sessions)
                        else old(sessions)[chatId := ChatSession(chatId, DefaultTitle(chatId))])
        && agentCache == old(agentCache)[CacheKey(chatId, mode) := agent]
        && messages == old(messages) + [ChatMessage(chatId, User, Some(message))] +
             (if reply.Answered? then [ChatMessage(chatId, Ai, reply.content)] else [])
        && response == ResponseFor(reply)
    {
      if chatId !in sessions {
        if |chatId| < 8 {
          return Fallback;
        }
        var session := ChatSession(chatId, DefaultTitle(chatId));
        sessions := sessions[chatId := session];
      }
      messages := messages + [ChatMessage(chatId, User, Some(message))];
      var agent := GetOrCreateAgent(chatId, mode);
      var reply := agentCall(agent, chatId, message);
      if reply.AgentFailed? {
        return Fallback;
      }
      var answer := reply.content;
      messages := messages + [ChatMessage(chatId, Ai, answer)];
      var sources: seq<SourceDocument> := [];
      if reply.sources.Some? && !IsAnswerNegative(answer) {
        var mapped := ToSources(reply.sources.value);
        if mapped.Threw? {
          return Fallback;
        }
        sources := mapped.value;
      }
      return ChatResponse(answer, sources);
    }
  }

  // ----------------------------------------------------- turn properties

  /** What a turn leaves in the chat's history: the user message, then the
      AI message when the agent answered (even if the source mapping then
      failed). */
  lemma TurnHistory(before: seq<ChatMessage>, chatId: string, message: string, reply: AgentReply)
    ensures var after := before + [ChatMessage(chatId, User, Some(message))] +
                           (if reply.Answered? then [ChatMessage(chatId, Ai, reply.content)] else []);
      History(after, chatId) == History(before, chatId) + [ChatMessage(chatId, User, Some(message))] +
        (if reply.Answered? then [ChatMessage(chatId, Ai, reply.content)] else [])
  {
    var user := [ChatMessage(chatId, User, Some(message))];
    var ai := if reply.Answered? then [ChatMessage(chatId, Ai, reply.content)] else [];
    HistoryAppend(before, user, chatId);
    HistoryAppend(before + user, ai, chatId);
    assert History(user, chatId) == user by {
      assert user[..0] == [];
    }
    if ai != [] {
      assert History(ai, chatId) == ai by {
        assert ai[..0] == [];
      }
    }
  }

  /** A second lookup of the same chat and mode returns the first agent;
      the WEB agent of a chat is a different agent from its LOCAL one. */
  method AgentCacheReuse(chatId: string) returns (first: Agent, second: Agent, web: Agent)
    ensures first == second
    ensures first != web
    ensures first.retriever == EmbeddingSearch(chatId, 5, 0.5) && web.retriever == WebSearch
  {
    var service := new ChatService();
    first := service.GetOrCreateAgent(chatId, "LOCAL");
    second := service.GetOrCreateAgent(chatId, "LOCAL");
    assert CacheKey(chatId, "LOCAL") != CacheKey(chatId, WebMode) by {
      assert CacheKey(chatId, "LOCAL")[|chatId| + 1] == 'L';
    }
    assert Lower("LOCAL") != Lower(WebMode) by {
      assert |Lower("LOCAL")| == 5;
    }
    assert Lower(WebMode) == Lower(WebMode);
    web := service.GetOrCreateAgent(chatId, WebMode);
  }

  /** The chat id ChatController serves a request under: the given one, or
      "default-user" when it is missing or empty.  It is never empty, and
      the default is long enough for a default session title. */
  function EffectiveChatId(chatId: Option<string>): (r: string)
    ensures r != ""
    ensures chatId.Some? && chatId.value != "" ==> r == chatId.value
    ensures chatId.None? || chatId.value == "" ==> r == DefaultChatId && |r| >= 8
  {
    if chatId.None? || chatId.value == "" then DefaultChatId else chatId.value
  }
}

=== FILE: common.dfy ===
/** Shared vocabulary: Java's nullable values, the exceptions the services
    throw or catch, and sequence facts used by several services. */
module Common {

  /** A Java reference that may be null. */
  datatype Option<T> = None | Some(value: T)

  /** The exception kinds the core distinguishes.  IllegalState is
      java.lang.IllegalStateException, IOFailure is java.io.IOException (and
      its subclasses), RuntimeFailure is every other exception. */
  datatype Exception =
    | IllegalState(message: string)
    | IOFailure(message: string)
    | RuntimeFailure(message: string)

  /** A call that either returns a value or throws. */
  datatype Result<T> = Ok(value: T) | Threw(error: Exception)

  /** The first `n` elements of `s`, or all of `s` when it is shorter. */
  function Take<T>(s: seq<T>, n: nat): (r: seq<T>)
    ensures |r| <= n && |r| <= |s|
    ensures |s| <= n ==> r == s
    ensures |s| > n ==> |r| == n
    ensures r == s[..|r|]
  {
    if |s| <= n then s else s[..n]
  }

  /** `idx` lists, in strictly increasing order, positions of `b` that hold
      the elements of `a`. */
  ghost predicate IndexedBy<T>(a: seq<T>, b: seq<T>, idx: seq<nat>)
  {
    && |idx| == |a|
    && (forall k :: 0 <= k < |a| ==> idx[k] < |b| && a[k] == b[idx[k]])
    && (forall k, l :: 0 <= k < l < |a| ==> idx[k] < idx[l])
  }

  /** `a` is `b` with some elements dropped and the rest kept in order. */
  ghost predicate IsSubsequence<T>(a: seq<T>, b: seq<T>)
  {
    exists idx :: IndexedBy(a, b, idx)
  }

  lemma SubsequenceExtend<T>(a: seq<T>, b: seq<T>, x: T, keep: bool)
    requires IsSubsequence(a, b)
    ensures IsSubsequence(if keep then a + [x] else a, b + [x])
  {
    var idx: seq<nat> :| IndexedBy(a, b, idx);
    if keep {
      var idx': seq<nat> := idx + [|b|];
      assert forall k :: 0 <= k < |a| ==> idx'[k] == idx[k] < |b|;
      assert IndexedBy(a + [x], b + [x], idx');
    } else {
      assert IndexedBy(a, b + [x], idx);
    }
  }

  lemma SubsequencePrefix<T>(a: seq<T>, b: seq<T>, n: nat)
    requires IsSubsequence(a, b) && n <= |a|
    ensures IsSubsequence(a[..n], b)
  {
    var idx: seq<nat> :| IndexedBy(a, b, idx);
    assert IndexedBy(a[..n], b, idx[..n]);
  }

  lemma EmptyIsSubsequence<T>(b: seq<T>)
    ensures IsSubsequence([], b)
  {
    assert IndexedBy([], b, []);
  }
}

=== FILE: document_storage.dfy ===
/** DocumentStorageService: the in-memory catalogue of ingested documents,
    keyed by document id, with its JSON snapshot file.  The JSON encoding
    is taken as exact (what is written is what is read back); the random
    UUID and the clock are given as parameters. */
module DocumentStorage {
  import opened Common

  datatype DocumentInfo = DocumentInfo(
    id: string,
    filename: string,
    fileSize: int,
    uploadedAt: int,
    totalChunks: int,
    chatId: Option<string>)

  /** The snapshot file as `loadDocuments` finds it. */
  datatype StorageFile = Missing | Unreadable | Snapshot(documents: map<string, DocumentInfo>)

  /** How a snapshot write ends: written whole; failed before the file was
      opened, leaving it as it was; or failed after the file was opened and
      truncated, leaving a file that no longer parses. */
  datatype WriteOutcome = Written | FailedBeforeOpen | FailedAfterOpen

  /** The snapshot file after a write of `documents`. */
  function AfterWrite(file: StorageFile, documents: map<string, DocumentInfo>, write: WriteOutcome): (r: StorageFile)
    ensures r.Snapshot? <==> write.Written? || (write.FailedBeforeOpen? && file.Snapshot?)
    ensures write.Written? ==> r == Snapshot(documents)
    ensures write.FailedBeforeOpen? ==> r == file
    ensures write.FailedAfterOpen? ==> r == Unreadable
  {
    match write
    case Written => Snapshot(documents)
    case FailedBeforeOpen => file
    case FailedAfterOpen => Unreadable
  }

  /** A chat id that stands for "no chat": null or empty. */
  predicate IsGlobal(chatId: Option<string>)
  {
    chatId.None? || chatId.value == ""
  }

  /** The filter of `getAllDocuments(chatId)`: for a global chat id the
      documents with no chat, otherwise the documents of exactly that chat. */
  predicate Selects(chatId: Option<string>, d: DocumentInfo)
  {
    if IsGlobal(chatId) then IsGlobal(d.chatId) else d.chatId == chatId
  }

  /** The entries `getAllDocuments(chatId)` lists, keyed by their id (the
      list's order is the hash map's iteration order, left unspecified). */
  function Selected(documents: map<string, DocumentInfo>, chatId: Option<string>): (r: map<string, DocumentInfo>)
    ensures r.Keys <= documents.Keys
    ensures forall id :: id in r ==> r[id] == documents[id]
    ensures forall id :: id in documents ==> (id in r <==> Selects(chatId, documents[id]))
  {
    map id | id in documents && Selects(chatId, documents[id]) :: documents[id]
  }

  /** ChromaDocumentRecoveryService.recoverDocumentsFromChroma: the store
      offers no way to list its entries, so nothing is recovered. */
  function RecoverDocumentsFromChroma(): (r: seq<DocumentInfo>)
    ensures |r| == 0
  {
    []
  }

  class DocumentStorageService {
    var documents: map<string, DocumentInfo>
    var storageFile: StorageFile

    constructor (file: StorageFile)
      ensures documents == map[] && storageFile == file
    {
      documents := map[];
      storageFile := file;
    }

    /** `loadDocuments`: merge the snapshot into the map; when the map is
        still empty, attempt a recovery whose result is discarded. */
    method LoadDocuments() returns (attemptedRecovery: bool)
      modifies this`documents
      ensures documents == old(documents) + (if storageFile.Snapshot? then storageFile.documents else map[])
      ensures attemptedRecovery <==> documents == map[]
    {
      if storageFile.Snapshot? {
        documents := documents + storageFile.documents;
      }
      attemptedRecovery := documents == map[];
      if attemptedRecovery {
        var recovered := RecoverDocumentsFromChroma();
      }
    }

    /** `saveDocuments`: write the whole map; a failure is swallowed, the
        map is untouched, and the file is as `write` says. */
    method SaveDocuments(write: WriteOutcome)
      modifies this`storageFile
      ensures storageFile == AfterWrite(old(storageFile), documents, write)
    {
      match write {
        case Written => storageFile := Snapshot(documents);
        case FailedBeforeOpen =>
        case FailedAfterOpen => storageFile := Unreadable;
      }
    }

    /** `addDocument`: record a document under the id `freshId` (the random
        UUID), then persist. */
    method AddDocument(freshId: string, filename: string, fileSize: int, now: int,
                       totalChunks: int, chatId: Option<string>, write: WriteOutcome)
      returns (info: DocumentInfo)
      modifies this
      ensures info == DocumentInfo(freshId, filename, fileSize, now, totalChunks, chatId)
      ensures documents == old(documents)[freshId := info]
      ensures freshId !in old(documents) ==> |documents| == |old(documents)| + 1
      ensures storageFile == AfterWrite(old(storageFile), documents, write)
    {
      info := DocumentInfo(freshId, filename, fileSize, now, totalChunks, chatId);
      documents := documents[freshId := info];
      SaveDocuments(write);
    }

    /** `getAllDocuments`. */
    function GetAllDocuments(chatId: Option<string>): (r: map<string, DocumentInfo>)
      reads this
      ensures r.Keys <= documents.Keys
      ensures forall id :: id in r ==> r[id] == documents[id]
      ensures forall id :: id in documents ==> (id in r <==> Selects(chatId, documents[id]))
    {
      Selected(documents, chatId)
    }

    /** `getDocument`: the record stored under `id`, if any. */
    function GetDocument(id: string): (r: Option<DocumentInfo>)
      reads this
      ensures r.Some? <==> id in documents
      ensures r.Some? ==> r.value == documents[id]
    {
      if id in documents then Some(documents[id]) else None
    }

    /** `deleteDocument`: drop `id` (nothing happens when it is absent), then
        persist. */
    method DeleteDocument(id: string, write: WriteOutcome)
      modifies this
      ensures documents == old(documents) - {id}
      ensures storageFile == AfterWrite(old(storageFile), documents, write)
    {
      documents := documents - {id};
      SaveDocuments(write);
    }
  }

  // ------------------------------------------------------------ properties

  /** The global list and a chat's list never share an entry. */
  lemma SelectedDisjoint(documents: map<string, DocumentInfo>, chatId: string)
    requires chatId != ""
    ensures Selected(documents, Some(chatId)).Keys !! Selected(documents, None).Keys
  {
  }

  /** A null and an empty chat id list the same documents. */
  lemma SelectedGlobalSame(documents: map<string, DocumentInfo>)
    ensures Selected(documents, None) == Selected(documents, Some(""))
  {
  }

  /** Adding a record under a fresh id adds one to the count of exactly the
      lists that select it (this is the count the per-chat quota reads). */
  lemma {:induction false} SelectedCountAfterAdd(documents: map<string, DocumentInfo>, id: string,
                                                 d: DocumentInfo, chatId: Option<string>)
    requires id !in documents
    ensures |Selected(documents[id := d], chatId)| ==
      |Selected(documents, chatId)| + (if Selects(chatId, d) then 1 else 0)
  {
    var before, after := Selected(documents, chatId), Selected(documents[id := d], chatId);
    if Selects(chatId, d) {
      assert after == before[id := d];
      assert id !in before;
    } else {
      assert after == before;
    }
  }

  /** Deleting removes exactly `id`: every other entry stays, and deleting
      twice is the same as deleting once. */
  lemma DeleteRemovesOnly(documents: map<string, DocumentInfo>, id: string)
    ensures forall other :: other != id && other in documents ==>
      other in documents - {id} && (documents - {id})[other] == documents[other]
    ensures id !in documents ==> documents - {id} == documents
    ensures (documents - {id}) - {id} == documents - {id}
  {
  }

  /** A restart after a write: a new service over the file the write left,
      loading it.  A whole write reloads the map; a write that failed before
      opening reloads the previous snapshot; a write that failed after
      truncating the file leaves the registry empty, with recovery
      attempted. */
  method RestartAfterWrite(file: StorageFile, documents: map<string, DocumentInfo>, write: WriteOutcome)
    returns (reloaded: map<string, DocumentInfo>, attemptedRecovery: bool)
    ensures write.Written? ==> reloaded == documents && (attemptedRecovery <==> documents == map[])
    ensures write.FailedBeforeOpen? ==>
      reloaded == (if file.Snapshot? then file.documents else map[])
    ensures write.FailedAfterOpen? ==> reloaded == map[] && attemptedRecovery
  {
    var service := new DocumentStorageService(AfterWrite(file, documents, write));
    attemptedRecovery := service.LoadDocuments();
    reloaded := service.documents;
  }
}

=== FILE: ingestion.dfy ===
/** IngestionService: the per-chat quota, the chunk-tagging loop, the write
    to the embedding store, the registration in the document catalogue and
    the exception wrapping.  Parsing (Apache Tika), the recursive splitter
    (chunks of 1000 characters, overlap 100) and the embedding model are
    opaque: the parsed document and the splitter are parameters, and the
    store keeps the segments it was given. */
module Ingestion {
  import opened Common
  import opened Text
  import opened Segments
  import opened DocumentStorage

  const MaxDocumentsPerChat: nat := 5

  /** The message of the quota IllegalStateException. */
  function QuotaMessage(): string
  {
    "Maximum number of documents (" + Decimal(MaxDocumentsPerChat) + ") reached for this chat."
  }

  /** The message of the IOException every other failure becomes. */
  const IngestionFailedMessage: string := "Ingestion failed"

  /** The uploaded file: its original filename and its size in bytes. */
  datatype Upload = Upload(originalFilename: string, size: nat)

  /** How `ingest` ends: normally, or by throwing. */
  datatype Outcome = Ingested | Failed(error: Exception)

  /** The quota check: a non-empty chat id that already owns five or more
      documents. */
  function QuotaReached(documents: map<string, DocumentInfo>, chatId: Option<string>): (r: bool)
    ensures IsGlobal(chatId) ==> !r
    ensures !IsGlobal(chatId) ==> (r <==> |Selected(documents, chatId)| >= MaxDocumentsPerChat)
  {
    !IsGlobal(chatId) && |Selected(documents, chatId)| >= MaxDocumentsPerChat
  }

  /** The catch clauses: an IllegalStateException is rethrown as it is,
      anything else becomes IOException("Ingestion failed"). */
  function Classify(e: Exception): (r: Exception)
    ensures r.IllegalState? <==> e.IllegalState?
    ensures e.IllegalState? ==> r == e
    ensures !e.IllegalState? ==> r == IOFailure(IngestionFailedMessage)
  {
    if e.IllegalState? then e else IOFailure(IngestionFailedMessage)
  }

  /** The metadata the parsed document carries once `ingest` has added the
      file's name, source and size, and the chat id when there is one. */
  function DocumentMetadata(parsed: Metadata, file: Upload, chatId: Option<string>): (m: Metadata)
    ensures "filename" in m && m["filename"] == file.originalFilename
    ensures "source" in m && m["source"] == file.originalFilename
    ensures "file_size" in m && m["file_size"] == Decimal(file.size)
    ensures !IsGlobal(chatId) ==> "chatId" in m && m["chatId"] == chatId.value
    ensures IsGlobal(chatId) ==> ("chatId" in m <==> "chatId" in parsed)
  {
    var m := parsed["filename" := file.originalFilename]["source" := file.originalFilename]
                   ["file_size" := Decimal(file.size)];
    if IsGlobal(chatId) then m else m["chatId" := chatId.value]
  }

  /** The splitter's segments: each piece of text carries a copy of the
      document's metadata. */
  function Split(document: TextSegment, splitter: string -> seq<string>): (r: seq<TextSegment>)
    ensures |r| == |splitter(document.text)|
    ensures forall i :: 0 <= i < |r| ==> r[i].metadata == document.metadata
  {
    var texts := splitter(document.text);
    seq(|texts|, i requires 0 <= i < |texts| => TextSegment(texts[i], document.metadata))
  }

  /** The metadata of chunk `i` of `n`. */
  function ChunkMetadata(metadata: Metadata, i: nat, n: nat): Metadata
  {
    metadata["chunk_index" := Decimal(i)]["total_chunks" := Decimal(n)]
  }

  /** The segments, each tagged with its position and the total count. */
  function Tagged(segments: seq<TextSegment>): (r: seq<TextSegment>)
    ensures |r| == |segments|
  {
    seq(|segments|, i requires 0 <= i < |segments| =>
      TextSegment(segments[i].text, ChunkMetadata(segments[i].metadata, i, |segments|)))
  }

  /** The chunk-tagging loop of `ingest`. */
  method TagChunks(segments: seq<TextSegment>) returns (documents: seq<TextSegment>)
    ensures documents == Tagged(segments)
  {
    documents := [];
    for i := 0 to |segments|
      invariant documents == Tagged(segments)[..i]
    {
      var segment := segments[i];
      var metadata := segment.metadata["chunk_index" := Decimal(i)];
      metadata := metadata["total_chunks" := Decimal(|segments|)];
      documents := documents + [TextSegment(segment.text, metadata)];
    }
  }

  /** Everything `ingest` writes to the embedding store for a parsed
      document. */
  function ChunksOf(parsed: TextSegment, file: Upload, chatId: Option<string>,
                    splitter: string -> seq<string>): seq<TextSegment>
  {
    Tagged(Split(TextSegment(parsed.text, DocumentMetadata(parsed.metadata, file, chatId)), splitter))
  }

  /** The embedding store, seen as the list of segments written to it (the
      embedding vectors are left out). */
  class EmbeddingStore {
    var entries: seq<TextSegment>

    constructor ()
      ensures entries == []
    {
      entries := [];
    }

    /** EmbeddingStoreIngestor.ingest: embed and store every document, or
        fail with `failure`.  A failed call may still have been applied by
        the store (a write the server completes after the client timed
        out): `applied` says whether it was. */
    method AddAll(documents: seq<TextSegment>, failure: Option<Exception>, applied: bool)
      returns (error: Option<Exception>)
      modifies this
      ensures error == failure
      ensures failure.None? || applied ==> entries == old(entries) + documents
      ensures failure.Some? && !applied ==> entries == old(entries)
    {
      error := failure;
      if failure.None? || applied {
        entries := entries + documents;
      }
    }
  }

  class IngestionService {
    const embeddingStore: EmbeddingStore
    const documentStorageService: DocumentStorageService

    constructor (store: EmbeddingStore, registry: DocumentStorageService)
      ensures embeddingStore == store && documentStorageService == registry
    {
      embeddingStore := store;
      documentStorageService := registry;
    }

    /** `ingest(file, chatId)`.  `parsed` is what parsing the upload gave
        (or the exception it threw), `storeFailure` the exception the store
        write threw, if any, and `storeApplied` whether the store kept the
        chunks all the same; `freshId`, `now` and `write` are what
        the registry's UUID, clock and snapshot write give. */
    method Ingest(file: Upload, chatId: Option<string>, parsed: Result<TextSegment>,
                  splitter: string -> seq<string>, storeFailure: Option<Exception>, storeApplied: bool,
                  freshId: string, now: int, write: WriteOutcome)
      returns (outcome: Outcome)
      modifies embeddingStore, documentStorageService
      ensures QuotaReached(old(documentStorageService.documents), chatId) ==>
        && outcome == Failed(IllegalState(QuotaMessage()))
        && unchanged(embeddingStore) && unchanged(documentStorageService)
      ensures !QuotaReached(old(documentStorageService.documents), chatId) && parsed.Threw? ==>
        && outcome == Failed(Classify(parsed.error))
        && unchanged(embeddingStore) && unchanged(documentStorageService)
      ensures !QuotaReached(old(documentStorageService.documents), chatId) && parsed.Ok? && storeFailure.Some? ==>
        && outcome == Failed(Classify(storeFailure.value))
        && unchanged(documentStorageService)
        && embeddingStore.entries == old(embeddingStore.entries) +
             (if storeApplied then ChunksOf(parsed.value, file, chatId, splitter) else [])
      ensures !QuotaReached(old(documentStorageService.documents), chatId) && parsed.Ok? && storeFailure.None? ==>
        var chunks := ChunksOf(parsed.value, file, chatId, splitter);
        && outcome == Ingested
        && embeddingStore.entries == old(embeddingStore.entries) + chunks
        && documentStorageService.documents == old(documentStorageService.documents)[freshId :=
             DocumentInfo(freshId, file.originalFilename, file.size, now, |chunks|, chatId)]
        && documentStorageService.storageFile ==
             AfterWrite(old(documentStorageService.storageFile), documentStorageService.documents, write)
    {
      if !IsGlobal(chatId) {
        var currentCount := |documentStorageService.GetAllDocuments(chatId)|;
        if currentCount >= MaxDocumentsPerChat {
          return Failed(IllegalState(QuotaMessage()));
        }
      }
      if parsed.Threw? {
        return Failed(Classify(parsed.error));
      }
      var document := TextSegment(parsed.value.text, DocumentMetadata(parsed.value.metadata, file, chatId));
      var segments := Split(document, splitter);
      var documents := TagChunks(segments);
      var error := embeddingStore.AddAll(documents, storeFailure, storeApplied);
      if error.Some? {
        return Failed(Classify(error.value));
      }
      var info := documentStorageService.AddDocument(freshId, file.originalFilename, file.size, now,
                                                     |segments|, chatId, write);
      return Ingested;
    }
  }

  // ------------------------------------------------------------ properties

  /** Chunk `i` of `n` keeps its text, and its chunk_index and total_chunks
      decode, with Integer.parseInt, to `i` and `n`: the indices are exactly
      0 .. n-1, each once. */
  lemma TaggedIndices(segments: seq<TextSegment>)
    requires |segments| <= IntMax
    ensures forall i :: 0 <= i < |segments| ==>
      && Tagged(segments)[i].text == segments[i].text
      && "chunk_index" in Tagged(segments)[i].metadata
      && ParseInt(Tagged(segments)[i].metadata["chunk_index"]) == Some(i)
      && "total_chunks" in Tagged(segments)[i].metadata
      && ParseInt(Tagged(segments)[i].metadata["total_chunks"]) == Some(|segments|)
    ensures forall i, j :: 0 <= i < j < |segments| ==>
      Tagged(segments)[i].metadata["chunk_index"] != Tagged(segments)[j].metadata["chunk_index"]
  {
    DecimalRoundTrip(|segments|);
    forall i | 0 <= i < |segments|
      ensures ParseInt(Tagged(segments)[i].metadata["chunk_index"]) == Some(i)
    {
      DecimalRoundTrip(i);
    }
  }

  /** Every stored chunk carries the original filename as filename and
      source, the size as file_size, and the chat id when there is one. */
  lemma ChunksInherit(parsed: TextSegment, file: Upload, chatId: Option<string>,
                      splitter: string -> seq<string>)
    ensures var chunks := ChunksOf(parsed, file, chatId, splitter);
      forall i :: 0 <= i < |chunks| ==>
        && "filename" in chunks[i].metadata && chunks[i].metadata["filename"] == file.originalFilename
        && "source" in chunks[i].metadata && chunks[i].metadata["source"] == file.originalFilename
        && "file_size" in chunks[i].metadata && chunks[i].metadata["file_size"] == Decimal(file.size)
        && (!IsGlobal(chatId) ==> "chatId" in chunks[i].metadata && chunks[i].metadata["chatId"] == chatId.value)
  {
  }

  /** A successful ingest for a chat below its quota leaves the chat with at
      most five documents (given a fresh id): the quota is never exceeded by
      ingestion. */
  lemma {:induction false} QuotaKept(documents: map<string, DocumentInfo>, chatId: Option<string>,
                                      info: DocumentInfo)
    requires !IsGlobal(chatId) && !QuotaReached(documents, chatId)
    requires info.id !in documents && info.chatId == chatId
    ensures |Selected(documents[info.id := info], chatId)| <= MaxDocumentsPerChat
    ensures |Selected(documents[info.id := info], chatId)| == |Selected(documents, chatId)| + 1
  {
    SelectedCountAfterAdd(documents, info.id, info, chatId);
  }
}

=== FILE: provenance.dfy ===
/** Where the sources of a chat answer come from: segments written by
    ingestion, or pages kept by the web retriever.  These lemmas connect the
    metadata each writer puts on a segment with what the chat turn reads
    back from it. */
module Provenance {
  import opened Common
  import opened Text
  import opened Segments
  import Ingestion
  import WebRetrieval
  import Chat

  /** An ingested chunk maps to a source naming its uploaded file and its
      own position: the chunk_index written by the tagging loop parses back
      to that position. */
  lemma IngestedChunkSource(parsed: TextSegment, file: Ingestion.Upload, chatId: Option<string>,
                            splitter: string -> seq<string>, i: nat)
    requires |Ingestion.ChunksOf(parsed, file, chatId, splitter)| <= IntMax
    requires i < |Ingestion.ChunksOf(parsed, file, chatId, splitter)|
    ensures var chunk := Ingestion.ChunksOf(parsed, file, chatId, splitter)[i];
      Chat.ToSource(chunk) == Ok(Chat.SourceDocument(file.originalFilename, Chat.Excerpt(chunk.text), i))
  {
    var document := TextSegment(parsed.text, Ingestion.DocumentMetadata(parsed.metadata, file, chatId));
    var segments := Ingestion.Split(document, splitter);
    Ingestion.TaggedIndices(segments);
  }

  /** A retrieved web page maps to a source naming its URL, at chunk 0. */
  lemma WebPageSource(url: string, text: string)
    ensures Chat.ToSource(WebRetrieval.PageSegment(url, text)) ==
      Ok(Chat.SourceDocument(url, Chat.Excerpt(text), 0))
  {
    assert Decimal(0) == "0";
    DecimalRoundTrip(0);
  }

  /** When a web-mode agent answers (not negatively) with the pages the
      retriever returned, the turn never falls back: each page becomes, in
      order, a source naming its URL with chunk index 0. */
  lemma WebAnswerSources(query: string, web: WebRetrieval.Web, answer: Option<string>)
    requires WebRetrieval.RetrieveOutcome(query, web).Ok?
    requires !Chat.IsAnswerNegative(answer)
    ensures var pages := WebRetrieval.RetrieveOutcome(query, web).value;
      var response := Chat.ResponseFor(Chat.Answered(answer, Some(pages)));
      && response.answer == answer
      && |response.sources| == |pages|
      && forall k :: 0 <= k < |pages| ==>
           response.sources[k] ==
             Chat.SourceDocument(WebRetrieval.SourceUrls(pages)[k], Chat.Excerpt(pages[k].text), 0)
  {
    var pages := WebRetrieval.RetrieveOutcome(query, web).value;
    WebRetrieval.RetrieveShape(query, web);
    forall k | 0 <= k < |pages|
      ensures Chat.ToSource(pages[k]) ==
        Ok(Chat.SourceDocument(WebRetrieval.SourceUrls(pages)[k], Chat.Excerpt(pages[k].text), 0))
    {
      WebPageSource(WebRetrieval.SourceUrls(pages)[k], pages[k].text);
    }
    Chat.ResponseSources(Chat.Answered(answer, Some(pages)));
  }
}

=== FILE: segments.dfy ===
/** langchain4j's text-with-metadata values.  A Document, a TextSegment and
    the segment inside a retrieved Content all have this shape: a text and a
    string-to-string metadata map. */
module Segments {

  type Metadata = map<string, string>

  datatype TextSegment = TextSegment(text: string, metadata: Metadata)
}

=== FILE: text.dfy ===
/** The java.lang.String and Integer operations the services rely on:
    lower-casing, substring search, prefix test, decimal printing
    (String.valueOf) and decimal parsing (Integer.parseInt). */
module Text {
  import opened Common

  /** Integer.MIN_VALUE and Integer.MAX_VALUE. */
  const IntMin: int := -0x8000_0000
  const IntMax: int := 0x7FFF_FFFF

  // ---------------------------------------------------------------- case

  /** Character.toLowerCase on the ASCII letters; every other character is
      left as it is. */
  function LowerChar(c: char): char
  {
    if 'A' <= c <= 'Z' then (c as int + 32) as char else c
  }

  /** String.toLowerCase, one character at a time. */
  function Lower(s: string): (r: string)
    ensures |r| == |s|
    ensures forall i :: 0 <= i < |s| ==> r[i] == LowerChar(s[i])
  {
    seq(|s|, i requires 0 <= i < |s| => LowerChar(s[i]))
  }

  /** String.equalsIgnoreCase. */
  predicate EqualsIgnoreCase(a: string, b: string)
  {
    Lower(a) == Lower(b)
  }

  lemma {:induction false} LowerIdempotent(s: string)
    ensures Lower(Lower(s)) == Lower(s)
  {
    forall i | 0 <= i < |s|
      ensures Lower(Lower(s))[i] == Lower(s)[i]
    {
    }
  }

  // ----------------------------------------------------------- substrings

  /** `t` occurs in `s` starting at position `i`. */
  predicate OccursAt(s: string, t: string, i: int)
  {
    0 <= i && i + |t| <= |s| && s[i..i + |t|] == t
  }

  /** String.contains. */
  predicate Contains(s: string, t: string)
  {
    exists i | 0 <= i <= |s| - |t| :: OccursAt(s, t, i)
  }

  /** String.startsWith. */
  predicate StartsWith(s: string, p: string)
  {
    |p| <= |s| && s[..|p|] == p
  }

  /** A string contains whatever one of its substrings contains. */
  lemma ContainsTransitive(s: string, u: string, t: string)
    requires Contains(s, u) && Contains(u, t)
    ensures Contains(s, t)
  {
    var i :| 0 <= i <= |s| - |u| && OccursAt(s, u, i);
    var j :| 0 <= j <= |u| - |t| && OccursAt(u, t, j);
    assert s[i..i + |u|] == u;
    var w := s[i..i + |u|];
    var x, y := s[i + j..i + j + |t|], w[j..j + |t|];
    forall k | 0 <= k < |t|
      ensures x[k] == y[k]
    {
      assert w[j + k] == s[i + (j + k)];
    }
    assert x == y;
    assert OccursAt(s, t, i + j);
  }

  /** A string contains each of its prefixes. */
  lemma StartsWithContains(s: string, p: string)
    requires StartsWith(s, p)
    ensures Contains(s, p)
  {
    assert OccursAt(s, p, 0);
  }

  // ------------------------------------------------------------- decimals

  predicate IsDigit(c: char)
  {
    '0' <= c <= '9'
  }

  predicate AllDigits(s: string)
  {
    forall i :: 0 <= i < |s| ==> IsDigit(s[i])
  }

  function DigitChar(d: nat): (c: char)
    requires d < 10
    ensures IsDigit(c)
  {
    ('0' as int + d) as char
  }

  /** String.valueOf of a non-negative number: its decimal digits, most
      significant first, without sign or leading zeros. */
  function Decimal(n: nat): (r: string)
    ensures |r| > 0 && AllDigits(r)
    ensures |r| > 1 ==> r[0] != '0'
  {
    if n < 10 then [DigitChar(n)] else Decimal(n / 10) + [DigitChar(n % 10)]
  }

  /** The number a string of decimal digits denotes. */
  function DigitsValue(s: string): nat
    requires AllDigits(s)
  {
    if s == [] then 0
    else DigitsValue(s[..|s| - 1]) * 10 + (s[|s| - 1] as int - '0' as int)
  }

  /** Integer.parseInt(s) with radix 10: an optional '+' or '-', then one or
      more decimal digits, and a value within the range of int; anything else
      is a NumberFormatException, here None. */
  function ParseInt(s: string): (r: Option<int>)
    ensures r.Some? ==> IntMin <= r.value <= IntMax
    ensures r.Some? ==> |s| > 0
    ensures AllDigits(s) && |s| > 0 && DigitsValue(s) <= IntMax ==> r == Some(DigitsValue(s))
  {
    if |s| == 0 then None
    else
      var digits := if s[0] == '-' || s[0] == '+' then s[1..] else s;
      if |digits| == 0 || !AllDigits(digits) then None
      else
        var v: int := if s[0] == '-' then -(DigitsValue(digits) as int) else DigitsValue(digits);
        if IntMin <= v <= IntMax then Some(v) else None
  }

  lemma {:induction false} DecimalValue(n: nat)
    ensures DigitsValue(Decimal(n)) == n
  {
    if n >= 10 {
      var d := Decimal(n / 10);
      DecimalValue(n / 10);
      assert Decimal(n) == d + [DigitChar(n % 10)];
      assert (d + [DigitChar(n % 10)])[..|d|] == d;
    }
  }

  /** Integer.parseInt(String.valueOf(n)) == n for every int n >= 0. */
  lemma DecimalRoundTrip(n: nat)
    requires n <= IntMax
    ensures ParseInt(Decimal(n)) == Some(n)
  {
    DecimalValue(n);
  }

  /** Distinct numbers print differently. */
  lemma DecimalInjective(m: nat, n: nat)
    requires m <= IntMax && n <= IntMax && m != n
    ensures Decimal(m) != Decimal(n)
  {
    DecimalRoundTrip(m);
    DecimalRoundTrip(n);
  }
}

=== FILE: web_retrieval.dfy ===
/** WebSearchContentRetriever: search the web for the query, scrape each
    result and keep the pages with text as retrieved segments. */
module WebRetrieval {
  import opened Common
  import opened Segments
  import opened WebScraper

  /** The network as the retriever sees it: the outcome of fetching the
      result hrefs for a query, and of fetching a page's body text. */
  datatype Web = Web(searchResults: string -> Result<seq<string>>,
                     pageText: string -> Result<string>)

  /** The segment made from a scraped page: its text, tagged with the URL as
      filename and chunk index "0". */
  function PageSegment(url: string, text: string): (r: TextSegment)
    ensures r.text == text
    ensures r.metadata.Keys == {"filename", "chunk_index"}
    ensures r.metadata["filename"] == url && r.metadata["chunk_index"] == "0"
  {
    TextSegment(text, map["filename" := url, "chunk_index" := "0"])
  }

  /** The segments kept from scraping `urls` in order, or the first
      exception a scrape let through. */
  function Pages(urls: seq<string>, pageText: string -> Result<string>): Result<seq<TextSegment>>
  {
    if urls == [] then Ok([])
    else
      var url := urls[|urls| - 1];
      match Pages(urls[..|urls| - 1], pageText)
      case Threw(e) => Threw(e)
      case Ok(kept) =>
        match Scrape(pageText(url))
        case Threw(e) => Threw(e)
        case Ok(text) => Ok(if text == "" then kept else kept + [PageSegment(url, text)])
  }

  /** What `retrieve` returns for a query. */
  function RetrieveOutcome(query: string, web: Web): Result<seq<TextSegment>>
  {
    match SearchOutcome(web.searchResults(query))
    case Threw(e) => Threw(e)
    case Ok(urls) => Pages(urls, web.pageText)
  }

  /** Once a scrape has thrown, the rest of the URLs change nothing. */
  lemma {:induction false} PagesThrewStays(urls: seq<string>, n: nat, pageText: string -> Result<string>)
    requires n <= |urls| && Pages(urls[..n], pageText).Threw?
    ensures Pages(urls, pageText) == Pages(urls[..n], pageText)
    decreases |urls| - n
  {
    if n < |urls| {
      assert urls[..n + 1][..n] == urls[..n];
      assert Pages(urls[..n + 1], pageText) == Pages(urls[..n], pageText);
      PagesThrewStays(urls, n + 1, pageText);
    } else {
      assert urls[..n] == urls;
    }
  }

  /** `retrieve`: the loop over the search URLs, keeping each page whose
      scraped text is non-empty. */
  method Retrieve(query: string, web: Web) returns (r: Result<seq<TextSegment>>)
    ensures r == RetrieveOutcome(query, web)
  {
    var found := Search(web.searchResults(query));
    if found.Threw? {
      return Threw(found.error);
    }
    var urls := found.value;
    var contents: seq<TextSegment> := [];
    for i := 0 to |urls|
      invariant Pages(urls[..i], web.pageText) == Ok(contents)
    {
      var url := urls[i];
      assert urls[..i + 1][..i] == urls[..i];
      var text := Scrape(web.pageText(url));
      if text.Threw? {
        PagesThrewStays(urls, i + 1, web.pageText);
        assert urls[..|urls|] == urls;
        return Threw(text.error);
      }
      if text.value != "" {
        contents := contents + [PageSegment(url, text.value)];
      }
    }
    assert urls[..|urls|] == urls;
    return Ok(contents);
  }

  /** The URL each retrieved segment was tagged with. */
  ghost function SourceUrls(segments: seq<TextSegment>): (r: seq<string>)
    ensures |r| == |segments|
  {
    seq(|segments|, k requires 0 <= k < |segments| =>
      if "filename" in segments[k].metadata then segments[k].metadata["filename"] else "")
  }

  /** The text a URL's scrape yields, "" when it threw. */
  ghost function ScrapedText(pageText: string -> Result<string>, url: string): string
  {
    match Scrape(pageText(url))
    case Ok(text) => text
    case Threw(_) => ""
  }

  /** One more URL adds at most its own page. */
  lemma PagesStep(urls: seq<string>, pageText: string -> Result<string>)
    requires urls != [] && Pages(urls, pageText).Ok?
    ensures var init, url := urls[..|urls| - 1], urls[|urls| - 1];
      && Pages(init, pageText).Ok?
      && Scrape(pageText(url)).Ok?
      && ScrapedText(pageText, url) == Scrape(pageText(url)).value
      && Pages(urls, pageText).value ==
           if ScrapedText(pageText, url) == "" then Pages(init, pageText).value
           else Pages(init, pageText).value + [PageSegment(url, ScrapedText(pageText, url))]
  {
  }

  /** A successful retrieval over `urls` keeps at most one segment per URL,
      and the segments follow the URLs' order. */
  lemma {:induction false} PagesOrdered(urls: seq<string>, pageText: string -> Result<string>)
    requires Pages(urls, pageText).Ok?
    ensures |Pages(urls, pageText).value| <= |urls|
    ensures IsSubsequence(SourceUrls(Pages(urls, pageText).value), urls)
  {
    if urls == [] {
      EmptyIsSubsequence(urls);
    } else {
      var init, url := urls[..|urls| - 1], urls[|urls| - 1];
      assert urls == init + [url];
      PagesStep(urls, pageText);
      PagesOrdered(init, pageText);
      var kept := Pages(init, pageText).value;
      var pages := Pages(urls, pageText).value;
      var keep := ScrapedText(pageText, url) != "";
      assert SourceUrls(pages) == if keep then SourceUrls(kept) + [url] else SourceUrls(kept);
      SubsequenceExtend(SourceUrls(kept), init, url, keep);
    }
  }

  /** Each retrieved segment is the non-empty scraped text of its URL, tagged
      with filename = URL and chunk_index = "0". */
  lemma {:induction false} PagesTagged(urls: seq<string>, pageText: string -> Result<string>)
    requires Pages(urls, pageText).Ok?
    ensures var pages := Pages(urls, pageText).value;
      forall k :: 0 <= k < |pages| ==>
        && pages[k] == PageSegment(SourceUrls(pages)[k], pages[k].text)
        && pages[k].text != ""
        && pages[k].text == ScrapedText(pageText, SourceUrls(pages)[k])
  {
    if urls != [] {
      var init, url := urls[..|urls| - 1], urls[|urls| - 1];
      PagesStep(urls, pageText);
      PagesTagged(init, pageText);
      var kept := Pages(init, pageText).value;
      var pages := Pages(urls, pageText).value;
      forall k | 0 <= k < |pages|
        ensures pages[k] == PageSegment(SourceUrls(pages)[k], pages[k].text)
        ensures pages[k].text != ""
        ensures pages[k].text == ScrapedText(pageText, SourceUrls(pages)[k])
      {
        if k < |kept| {
          assert pages[k] == kept[k];
          assert SourceUrls(pages)[k] == SourceUrls(kept)[k];
        }
      }
    }
  }

  /** Only URLs whose scrape is empty are dropped. */
  lemma {:induction false} PagesComplete(urls: seq<string>, pageText: string -> Result<string>, u: string)
    requires Pages(urls, pageText).Ok?
    requires u in urls && ScrapedText(pageText, u) != ""
    ensures u in SourceUrls(Pages(urls, pageText).value)
  {
    var init, url := urls[..|urls| - 1], urls[|urls| - 1];
    assert urls == init + [url];
    PagesStep(urls, pageText);
    var kept := Pages(init, pageText).value;
    var pages := Pages(urls, pageText).value;
    if u == url {
      assert SourceUrls(pages)[|pages| - 1] == u;
    } else {
      PagesComplete(init, pageText, u);
      var k :| 0 <= k < |kept| && SourceUrls(kept)[k] == u;
      assert pages[k] == kept[k];
      assert SourceUrls(pages)[k] == u;
    }
  }

  /** A retrieval yields at most five segments, all tagged as above, and an
      empty search yields none. */
  lemma RetrieveShape(query: string, web: Web)
    ensures SearchOutcome(web.searchResults(query)) == Ok([]) ==> RetrieveOutcome(query, web) == Ok([])
    ensures RetrieveOutcome(query, web).Ok? ==>
      var pages := RetrieveOutcome(query, web).value;
      && |pages| <= MaxUrls
      && forall k :: 0 <= k < |pages| ==>
           pages[k].text != "" && |pages[k].text| <= MaxPageChars
           && pages[k] == PageSegment(SourceUrls(pages)[k], pages[k].text)
  {
    var found := SearchOutcome(web.searchResults(query));
    if found.Ok? && RetrieveOutcome(query, web).Ok? {
      if web.searchResults(query).Ok? {
        FirstResultsShape(web.searchResults(query).value);
      }
      PagesOrdered(found.value, web.pageText);
      PagesTagged(found.value, web.pageText);
      var pages := RetrieveOutcome(query, web).value;
      forall k | 0 <= k < |pages|
        ensures |pages[k].text| <= MaxPageChars
      {
        var u := SourceUrls(pages)[k];
        assert pages[k].text == ScrapedText(web.pageText, u);
      }
    }
  }
}

=== FILE: web_scraper.dfy ===
/** WebScraperService: the search-result filter and the page truncation.
    The HTTP fetch and the HTML parsing (jsoup) are opaque: a fetch is given
    as its outcome, the list of result hrefs or the page's body text, or the
    exception it threw. */
module WebScraper {
  import opened Common
  import opened Text

  /** At most this many URLs are kept from one search. */
  const MaxUrls: nat := 5
  /** A scraped page keeps at most this many characters. */
  const MaxPageChars: nat := 2000
  /** Links into the search engine itself are dropped. */
  const SearchEngineDomain: string := "duckduckgo.com"

  /** A result href that search keeps (when there is room). */
  predicate Qualifies(href: string)
  {
    href != "" && !Contains(href, SearchEngineDomain)
  }

  /** The qualifying hrefs, in their original order. */
  function Qualifying(hrefs: seq<string>): (r: seq<string>)
    ensures |r| <= |hrefs|
    ensures forall k :: 0 <= k < |r| ==> Qualifies(r[k])
  {
    if hrefs == [] then []
    else
      var last := hrefs[|hrefs| - 1];
      Qualifying(hrefs[..|hrefs| - 1]) + (if Qualifies(last) then [last] else [])
  }

  /** What a successful search returns: the first (at most) five qualifying
      hrefs. */
  function FirstResults(hrefs: seq<string>): seq<string>
  {
    Take(Qualifying(hrefs), MaxUrls)
  }

  /** The outcome of `search` given the outcome of fetching the result page:
      an IOException is swallowed into an empty list, any other exception
      propagates. */
  function SearchOutcome(fetched: Result<seq<string>>): Result<seq<string>>
  {
    match fetched
    case Ok(hrefs) => Ok(FirstResults(hrefs))
    case Threw(e) => if e.IOFailure? then Ok([]) else Threw(e)
  }

  /** One step of the search loop. */
  lemma FirstResultsStep(hrefs: seq<string>, href: string)
    ensures FirstResults(hrefs + [href]) ==
      if Qualifies(href) && |FirstResults(hrefs)| < MaxUrls
      then FirstResults(hrefs) + [href] else FirstResults(hrefs)
  {
    assert (hrefs + [href])[..|hrefs|] == hrefs;
  }

  /** `search`: the loop over the result anchors, appending each qualifying
      href while fewer than five have been kept. */
  method Search(fetched: Result<seq<string>>) returns (urls: Result<seq<string>>)
    ensures urls == SearchOutcome(fetched)
  {
    if fetched.Threw? {
      if fetched.error.IOFailure? {
        return Ok([]);
      }
      return Threw(fetched.error);
    }
    var results := fetched.value;
    var kept: seq<string> := [];
    for i := 0 to |results|
      invariant kept == FirstResults(results[..i])
    {
      var url := results[i];
      FirstResultsStep(results[..i], url);
      assert results[..i + 1] == results[..i] + [url];
      if url != "" && !Contains(url, SearchEngineDomain) && |kept| < MaxUrls {
        kept := kept + [url];
      }
    }
    assert results[..|results|] == results;
    return Ok(kept);
  }

  /** A search returns at most five URLs, each non-empty and outside the
      search engine's domain, and they are a subsequence of the hrefs. */
  lemma {:induction false} FirstResultsShape(hrefs: seq<string>)
    ensures |FirstResults(hrefs)| <= MaxUrls
    ensures forall k :: 0 <= k < |FirstResults(hrefs)| ==>
      FirstResults(hrefs)[k] != "" && !Contains(FirstResults(hrefs)[k], SearchEngineDomain)
    ensures IsSubsequence(FirstResults(hrefs), hrefs)
  {
    QualifyingIsSubsequence(hrefs);
    var q := Qualifying(hrefs);
    SubsequencePrefix(q, hrefs, |Take(q, MaxUrls)|);
  }

  lemma {:induction false} QualifyingIsSubsequence(hrefs: seq<string>)
    ensures IsSubsequence(Qualifying(hrefs), hrefs)
  {
    if hrefs == [] {
      EmptyIsSubsequence(hrefs);
    } else {
      var init, last := hrefs[..|hrefs| - 1], hrefs[|hrefs| - 1];
      assert init + [last] == hrefs;
      var q := Qualifying(init);
      assert Qualifying(hrefs) == if Qualifies(last) then q + [last] else q;
      QualifyingIsSubsequence(init);
      SubsequenceExtend(q, init, last, Qualifies(last));
    }
  }

  /** An href is among the qualifying ones exactly when it occurs in the
      input and qualifies. */
  lemma {:induction false} QualifyingMembership(hrefs: seq<string>, href: string)
    ensures href in Qualifying(hrefs) <==> href in hrefs && Qualifies(href)
  {
    if hrefs != [] {
      var init, last := hrefs[..|hrefs| - 1], hrefs[|hrefs| - 1];
      QualifyingMembership(init, href);
      assert hrefs == init + [last];
    }
  }

  /** When fewer than five hrefs qualify, search keeps all of them; otherwise
      it keeps exactly five, the first five. */
  lemma FirstResultsComplete(hrefs: seq<string>)
    ensures |Qualifying(hrefs)| <= MaxUrls ==> FirstResults(hrefs) == Qualifying(hrefs)
    ensures |Qualifying(hrefs)| > MaxUrls ==>
      FirstResults(hrefs) == Qualifying(hrefs)[..MaxUrls]
  {
  }

  // ---------------------------------------------------------------- scrape

  /** The body text cut to at most 2000 characters. */
  function Truncate(text: string): (r: string)
    ensures |r| <= MaxPageChars && |r| <= |text|
    ensures r == text[..|r|]
    ensures |text| <= MaxPageChars ==> r == text
    ensures |text| > MaxPageChars ==> |r| == MaxPageChars
  {
    if |text| > MaxPageChars then text[..MaxPageChars] else text
  }

  /** `scrape` given the outcome of fetching the page's body text: the text
      truncated, or "" when the fetch threw an IOException; any other
      exception propagates. */
  function Scrape(fetched: Result<string>): (r: Result<string>)
    ensures fetched.Ok? ==> r.Ok? && r.value == Truncate(fetched.value)
    ensures fetched.Threw? && fetched.error.IOFailure? ==> r == Ok("")
    ensures fetched.Threw? && !fetched.error.IOFailure? ==> r == fetched
    ensures r.Ok? ==> |r.value| <= MaxPageChars
  {
    match fetched
    case Ok(text) => Ok(Truncate(text))
    case Threw(e) => if e.IOFailure? then Ok("") else Threw(e)
  }
}
